=== FILE: README.md ===
# cscope.nvim: a Dafny model of the plugin core

cscope.nvim is a Neovim remote plugin. It keeps a cscope index for a project
described by a small INI-style configuration file. `CScopeStart` does three
things:

- reads the file's `name`, `path`, `files` and `libs` options;
- creates a workspace directory `<cscope_dir>/<name>`;
- builds the `find` command that lists the files to index.

`CScopeUpdate` then does three things:

- runs that command into `cscope.files`;
- runs `cscope -q -R -b` to rebuild `cscope.out`;
- attaches the editor to the index: `cscope add` the first time, `cscope reset` afterwards.

The model is pure Dafny functions over immutable values, with one module per concern:

| module | file | contents |
|---|---|---|
| `Results` | results.dfy | `Option` and `Result` |
| `Splitting` | splitting.dfy | Python's `str.split`/`str.join` on one character, and the empty-line filter |
| `Paths` | paths.dfy | POSIX `os.path.join` |
| `Configuration` | configuration.dfy | extracting the project configuration from the `[root]` section |
| `FindCommand` | find_command.dfy | the `find` argument vector, its layout, and decoding it back |
| `Connection` | connection.dfy | the add-once-then-reset connection state machine |
| `Plugin` | plugin.dfy | the plugin's attributes and the start and update handlers as transitions |

Host facilities are parameters, not computations:

- `os.path.expanduser` is an arbitrary function `expand`.
- `os.getcwd()` is a string.
- `isdir`/`isfile` are membership in the `Disk` sets.
- The parsed configuration files are a map from path to section.
- `os.mkdir` succeeds exactly on the paths in `creatable`.
- How the update's file accesses and subprocesses fare is the `UpdateEnv` record.

An exception that escapes a handler is the `aborted` flag of the outcome.
The steps after it do not happen, and the attributes already assigned keep
their values.

## Behaviour of the code that the model follows

- A failing `cscope` run is never reported. `subprocess.call` does not raise
  `CalledProcessError`, so the handler in `__update_cscope_out` cannot fire.
  A missing `cscope` executable raises `FileNotFoundError`, which escapes the
  handler (`UpdateOut`, `aborted`).
- A `find` that cannot be started is reported. It raises `FileNotFoundError`,
  and that is an `OSError`, which the `IOError` clause catches.
- `CScopeUpdate` before any `CScopeStart` raises (`UpdateBeforeStartAborts`),
  because `cmd_cscope_files` does not exist yet. It does not report "command
  not ready".
- A failed `CScopeStart` does not clear `cmd_cscope_files`. An update after it
  runs the command of the last successful start (`FailedRestartKeepsCommand`).
- `CScopeStart` clears the plugin's connection flag, and nothing sends
  `cscope kill`. The first update after a restart therefore issues
  `cscope add` again (`StartThenUpdateAddsIndex`), duplicating a database the
  editor already holds. Only the flag returns to "not connected".
- The connection step runs on every update that gets that far, whether or not
  the index was rebuilt. A stale `cscope.out` is reset or added too.
- `files` is split on `,` with Python's semantics. The list is never empty,
  and its entries are neither trimmed nor checked, so `files =` gives one
  empty pattern. Library paths need not be absolute.
- The "command not ready" report of `__update_cscope_files` cannot occur.
  `__gen_cscope_files` runs only right after `cscope_ready` is set, so it
  always stores a command, and the attribute is otherwise never assigned
  (`StartNeverNotReady`). The model keeps the branch as the code has it.
- With a single argument, `CScopeStart` checks that the argument is an
  existing file before expanding `~`. The expanded path is the one it then opens.

## Model

| member | source | states |
|---|---|---|
| Splitting.Split | rplugin/python3/nvim-cscope.py:28 | `str.split` gives one more piece than there are separators, and no piece contains the separator |
| Splitting.JoinSplit | rplugin/python3/nvim-cscope.py:28 | joining the pieces of a split with the same separator restores the original string |
| Splitting.SplitJoin | rplugin/python3/nvim-cscope.py:28 | splitting a join of separator-free parts gives back exactly those parts |
| Splitting.SplitAfterPiece | rplugin/python3/nvim-cscope.py:31 | a separator-free prefix before the first separator becomes the first piece |
| Splitting.RemoveEmpty | rplugin/python3/nvim-cscope.py:29-32 | the filter keeps exactly the non-empty entries and never lengthens the list |
| Splitting.RemoveEmptyAppend | rplugin/python3/nvim-cscope.py:29-32 | filtering distributes over concatenation, so kept entries keep their order |
| Splitting.RemoveEmptyKeepsNonEmpty | rplugin/python3/nvim-cscope.py:29-32 | a list without empty entries passes unchanged |
| Configuration.FileTypes | rplugin/python3/nvim-cscope.py:28 | the file types are a non-empty comma-free list whose `,`-join is the `files` option |
| Configuration.FileTypesUnique | rplugin/python3/nvim-cscope.py:28 | any list meeting FileTypes' contract is its result, so the contract fixes the parse |
| Configuration.LibLines | rplugin/python3/nvim-cscope.py:29-32 | the library lines are exactly the non-empty newline-separated pieces of the option |
| Configuration.LibLinesFirstLine | rplugin/python3/nvim-cscope.py:29-32 | the first line of `libs` comes first in the list unless it is empty |
| Configuration.LibLinesJoin | rplugin/python3/nvim-cscope.py:29-32 | non-empty lines written one per line are read back in order; no lines give no libraries |
| Configuration.ParseConfig | rplugin/python3/nvim-cscope.py:24-44 | the first missing option among name, path, files is the error; otherwise a non-directory path is the error; the result is `Ok` exactly when name, path and files are present and the expanded path is a directory, and then every field is as extracted, with no libraries when `libs` is missing |
| Paths.PathJoin | rplugin/python3/nvim-cscope.py:50-57 | an absolute part replaces the base; otherwise the result is the base, then a `/` exactly when the base is non-empty and does not already end in one, then the part |
| FindCommand.FindArgv | rplugin/python3/nvim-cscope.py:66-78 | the command starts with `find`, followed by the library paths in order |
| FindCommand.GenCscopeFiles | rplugin/python3/nvim-cscope.py:63-78 | no command unless ready; when ready the two loops build exactly FindArgv |
| FindCommand.NameClausesSnoc | rplugin/python3/nvim-cscope.py:70-77 | each further file type appends `-o -name <pattern>` |
| FindCommand.NameClausesShape | rplugin/python3/nvim-cscope.py:70-77 | n patterns give 3n-1 words: `-name` and pattern k at 3k and 3k+1, and `-o` before every test except the first |
| FindCommand.FindArgvLayout | rplugin/python3/nvim-cscope.py:66-77 | the command has 2+libs+3·types-1 words: `find`, the libraries, the project path once, then the `-name` tests |
| FindCommand.SeparatorCount | rplugin/python3/nvim-cscope.py:70-77 | the tests contain one `-o` per pattern after the first, plus any pattern equal to `-o` |
| FindCommand.FindSeparatorCount | rplugin/python3/nvim-cscope.py:66-77 | when no argument is itself `-o`, the command holds exactly types-1 separators |
| FindCommand.DecodeFindArgv | rplugin/python3/nvim-cscope.py:66-78 | libraries, project path and patterns can be read back from a built command |
| FindCommand.EncodeDecodedFind | rplugin/python3/nvim-cscope.py:66-78 | every command the decoder accepts is the one built from what it reads back |
| Connection.CommandLineInjective | rplugin/python3/nvim-cscope.py:115-118 | the line sent to the editor determines the command: `cscope reset` is never an add, and two adds are the same line only for the same database |
| Connection.InitCscope | rplugin/python3/nvim-cscope.py:109-119 | no index file: nothing happens; otherwise `add` exactly when not connected, `reset` exactly when connected, connected afterwards |
| Connection.ReplayAddsOnce | rplugin/python3/nvim-cscope.py:109-119 | over any series of steps, one command per sighting of the index; only the first can be `add`; the flag ends set exactly when it started set or the index was seen |
| Plugin.CscopeArgv | rplugin/python3/nvim-cscope.py:102-103 | the indexer reads the file list and writes the index |
| Plugin.Workspace | rplugin/python3/nvim-cscope.py:84 | the workspace is known exactly when both the base directory and the project name are, and is then the project name joined under the base directory |
| Plugin.CreateCscopeDir | rplugin/python3/nvim-cscope.py:46-61 | succeeds exactly when each missing directory can be made, and then both exist; an uncreatable base is named and nothing changes; otherwise an uncreatable project directory is named and only the base was added; files are untouched |
| Plugin.CreateCscopeDirIdempotent | rplugin/python3/nvim-cscope.py:46-61 | preparing an existing workspace again cannot fail and changes nothing |
| Plugin.LocateConfig | rplugin/python3/nvim-cscope.py:208-227 | with one argument, found exactly when it is an existing file, and then its expansion is used; otherwise found exactly when the configured name joined under the working directory is a file, and then that path is used; a failure shows the name the user gave |
| Plugin.WithDefaults | rplugin/python3/nvim-cscope.py:198-205 | `cscope_dir` and `cscope_config` get their defaults only when unset; other variables are kept |
| Plugin.AutoCommands | rplugin/python3/nvim-cscope.py:250-256 | at most `CScopeUpdate` then `CScopeMapKeys`, in that order, each exactly when its variable is set, and nothing else |
| Plugin.Configure | rplugin/python3/nvim-cscope.py:229-256 | ready exactly when the configuration parses and the workspace can be made, and then the command is that configuration's `find` command; a rejected configuration gives its parser error as the one report and leaves the disk untouched; a failed workspace gives the failed directory as the one report; on failure the command slot is untouched |
| Plugin.Load | rplugin/python3/nvim-cscope.py:207-234 | a configuration file that is not found is reported under the name shown, with nothing changed; one that cannot be opened raises after forgetting the project name, with no report; a readable one goes on to Configure |
| Plugin.Start | rplugin/python3/nvim-cscope.py:193-256 | both flags cleared; ready exactly when nothing was reported and nothing raised; a failure that does not raise gives exactly one report, and any failure keeps the old command; when ready the workspace exists and the command starts with `find` |
| Plugin.StartReadyGate | rplugin/python3/nvim-cscope.py:229-248 | a start is ready exactly when the file is found, parses and the workspace can be made; then its command is that configuration's `find` command |
| Plugin.StartConfigFileFailures | rplugin/python3/nvim-cscope.py:208-229 | a configuration file that is not found is reported under the name given and one that cannot be opened raises; neither touches the disk |
| Plugin.StartRejectsConfig | rplugin/python3/nvim-cscope.py:229-234 | a configuration that is found but rejected is reported with the parser's error, the plugin is not ready, and no directory is created |
| Plugin.StartMissingPath | rplugin/python3/nvim-cscope.py:24-34 | a configuration with a `name` but no `path` option fails with that missing option, and no workspace directory is created |
| Plugin.StartNeverNotReady | rplugin/python3/nvim-cscope.py:244-248 | a start leaves the command assigned-but-empty only if it already was, so from a fresh plugin no start produces it |
| Plugin.UpdateFiles | rplugin/python3/nvim-cscope.py:80-89 | no command attribute raises; an unassigned or empty command reports "not ready"; a runnable command with no known workspace raises; a workspace that is not a directory or not writable reports a write failure on the file list; otherwise the file list is created, and a `find` that cannot start is reported, else it runs |
| Plugin.UpdateOut | rplugin/python3/nvim-cscope.py:91-107 | a missing file list is reported; otherwise `cscope` runs on it, or raises when it cannot start |
| Plugin.AttachIndex | rplugin/python3/nvim-cscope.py:109-119 | when the index exists: `add` if not connected, else `reset`, connected afterwards; otherwise nothing |
| Plugin.FilesReport | rplugin/python3/nvim-cscope.py:180-184 | a file-list failure gives exactly one report |
| Plugin.Finish | rplugin/python3/nvim-cscope.py:186-191 | `cscope` is started on the file list and index exactly when the workspace is known, the list exists and `cscope` can start, and the index is then added when the run writes it; the reports are the earlier ones plus "file list missing" exactly when the workspace is known and the list does not exist; the step raises exactly when the workspace is unknown or the list exists and `cscope` cannot start; otherwise the connection step runs |
| Plugin.Update | rplugin/python3/nvim-cscope.py:178-191 | only the connection flag changes; the reports are exactly the file-list failure (not ready, write failure, or `find` not starting) followed by "file list missing" when the list was neither there nor written; nothing raised means the connection step ran, with `add` or `reset` exactly when the index exists |
| Plugin.UpdateRunsProcesses | rplugin/python3/nvim-cscope.py:178-191 | the stored `find` runs exactly when the command is runnable, the workspace is a directory, the list can be opened and `find` starts, and the list is then created; `cscope` runs next exactly when the list exists at that point and `cscope` starts; the update raises in the first step for a missing command or an unknown workspace, and otherwise exactly when the list exists and `cscope` cannot start |
| Plugin.UpdateRaisesAfterReport | rplugin/python3/nvim-cscope.py:84-103 | an update can echo the `find` failure and then raise because `cscope` cannot start |
| Plugin.UpdateBeforeStartAborts | rplugin/python3/nvim-cscope.py:80-81 | an update on a freshly constructed plugin raises before doing anything |
| Plugin.UpdateAbortCases | rplugin/python3/nvim-cscope.py:178-191 | when `cscope` can start, an update raises exactly when the command attribute or the workspace is missing |
| Plugin.UpdateNeverAddsTwice | rplugin/python3/nvim-cscope.py:114-119 | once connected, an update issues at most `cscope reset` and stays connected |
| Plugin.ReadyUpdateAddsIndex | rplugin/python3/nvim-cscope.py:178-191 | an update where everything succeeds runs `find` and then `cscope`, reports nothing, and adds the index |
| Plugin.StartThenUpdateAddsIndex | rplugin/python3/nvim-cscope.py:193-196 | after a successful start, such an update adds the index even if an earlier session had added it |
| Plugin.LaterUpdatesReset | rplugin/python3/nvim-cscope.py:114-116 | once connected and the index exists, every update that gets through resets |
| Plugin.FailedRestartKeepsCommand | rplugin/python3/nvim-cscope.py:229-248 | a failed start keeps the earlier command, so the next update does not report "not ready" and reruns the earlier `find` |

## Left out

- INI parsing (`configparser`, the `[root]` prefix, `readfp`): the section is given as a map. Syntax errors in the file, which raise, are not modelled. The model assumes a Python before 3.12, where `ConfigParser.readfp` still exists. From 3.12 on, line 22 raises `AttributeError` for every readable configuration file, so no start succeeds.
- Value interpolation by `ConfigParser.get`: a `%` in `name`, `path`, `files` or `libs` that is not followed by `%` or `(` raises while the option is read. The model treats every value as literal text.
- `os.path.expanduser`, `os.getcwd`, `isdir`/`isfile` and `os.mkdir` are oracles. The directory mode `0o755` and relative-path resolution are not modelled.
- The contents of `cscope.files` and `cscope.out`, and the exit status of `find` and `cscope`: `subprocess.call`'s return value is ignored by the plugin.
- The `cscope_debug` variable written by `__update_cscope_files`, and the wording of the echoed messages: reports are a datatype.
- The `CScopeMapKeys` handler and its `_keys_mapped` guard: it only issues fixed key mappings. The commands `CScopeUpdate` and `CScopeMapKeys` issued by a start are recorded as command lines, and the handlers they trigger are not run.
- The handlers' asynchronous dispatch: concurrent updates are not modelled.
- Connection.InitCscope: every editor command line is assumed to succeed. If the editor rejects `cscope add` (for example a duplicate after a restart), the exception escapes at line 118 of `rplugin/python3/nvim-cscope.py`, before the flag is set at line 119, so the plugin stays unconnected and every later update sends `add` again; the model does not show this.
- Plugin.LocateConfig: `isfile(args[0])` is membership of the unexpanded argument in the file set; no resolution against the working directory is modelled.

=== FILE: configuration.dfy ===
/**
 * The project configuration: the fields the plugin extracts from the
 * `[root]` section of the project's configuration file.
 */
module Configuration {
  import opened Results
  import Splitting

  /** The options of the `[root]` section, as the INI reader returns them. */
  type Section = map<string, string>

  /** The plugin's `config` dictionary after a successful parse. */
  datatype ProjectConfig = ProjectConfig(
    name: string,             // `name`, verbatim
    path: string,             // `path`, after home-directory expansion
    fileTypes: seq<string>,   // `files`, split on ','
    libs: seq<string>)        // `libs`, its non-empty lines, each expanded

  /** Why parsing stopped: the first required option that is absent, or a
      project path that is not an existing directory. */
  datatype ConfigError = MissingOption(option: string) | PathNotFound(path: string)

  /** The `files` option split on ','. Entries are not trimmed and may be empty. */
  function FileTypes(files: string): (types: seq<string>)
    ensures |types| >= 1
    ensures forall i :: 0 <= i < |types| ==> ',' !in types[i]
    ensures Splitting.Join(types, ',') == files
  {
    Splitting.JoinSplit(files, ',');
    Splitting.Split(files, ',')
  }

  /** The contract of FileTypes determines its result: any comma-free,
      non-empty list that joins back to `files` is the parsed list. */
  lemma FileTypesUnique(files: string, types: seq<string>)
    requires |types| >= 1
    requires forall i :: 0 <= i < |types| ==> ',' !in types[i]
    requires Splitting.Join(types, ',') == files
    ensures types == FileTypes(files)
  {
    Splitting.SplitJoin(types, ',');
  }

  /** The `libs` option split on newlines with the empty lines dropped. */
  function LibLines(libs: string): (lines: seq<string>)
    ensures forall i :: 0 <= i < |lines| ==> lines[i] != "" && '\n' !in lines[i]
    ensures forall x :: x in lines <==> x in Splitting.Split(libs, '\n') && x != ""
  {
    var pieces := Splitting.Split(libs, '\n');
    var lines := Splitting.RemoveEmpty(pieces);
    assert forall i :: 0 <= i < |lines| ==> lines[i] in pieces;
    lines
  }

  /** The first line of the option comes first in the list, unless it is
      empty, in which case it is dropped. */
  lemma LibLinesFirstLine(first: string, rest: string)
    requires '\n' !in first
    ensures LibLines(first + "\n" + rest) == (if first == "" then [] else [first]) + LibLines(rest)
  {
    Splitting.SplitAfterPiece(first, '\n', rest);
    var pieces := Splitting.Split(rest, '\n');
    Splitting.RemoveEmptyAppend([first], pieces);
    assert Splitting.RemoveEmpty([first]) == (if first == "" then [] else [first]);
  }

  /** Non-empty lines written one per line are read back exactly, in order;
      an option with no lines gives no libraries. */
  lemma {:induction false} LibLinesJoin(lines: seq<string>)
    requires forall i :: 0 <= i < |lines| ==> lines[i] != "" && '\n' !in lines[i]
    ensures LibLines(Splitting.Join(lines, '\n')) == lines
  {
    if |lines| == 0 {
      assert Splitting.Split("", '\n') == [""];
    } else {
      Splitting.SplitJoin(lines, '\n');
      Splitting.RemoveEmptyKeepsNonEmpty(lines);
    }
  }

  /** The raw `libs` value, or the empty string when the option is absent. */
  function LibsOption(section: Section): string
  {
    if "libs" in section then section["libs"] else ""
  }

  /** Extracts the configuration from the section. Options are read in the
      order name, path, files, libs; the first missing required one is the
      error. `expand` is home-directory expansion and `dirs` the set of
      existing directories. */
  function ParseConfig(section: Section, expand: string -> string, dirs: set<string>)
    : (r: Result<ProjectConfig, ConfigError>)
    ensures r == Err(MissingOption("name")) <==> "name" !in section
    ensures r == Err(MissingOption("path")) <==> "name" in section && "path" !in section
    ensures r == Err(MissingOption("files")) <==>
              "name" in section && "path" in section && "files" !in section
    ensures r.Err? && r.error.PathNotFound? <==>
              && "name" in section && "path" in section && "files" in section
              && expand(section["path"]) !in dirs
    ensures r.Err? && r.error.PathNotFound? ==>
              "path" in section && r.error.path == expand(section["path"])
    ensures r.Ok? <==>
              && "name" in section && "path" in section && "files" in section
              && expand(section["path"]) in dirs
    ensures r.Ok? ==>
              && "name" in section && "path" in section && "files" in section
              && r.value.name == section["name"]
              && r.value.path == expand(section["path"])
              && r.value.path in dirs
              && r.value.fileTypes == FileTypes(section["files"])
              && |r.value.libs| == |LibLines(LibsOption(section))|
              && (forall i :: 0 <= i < |r.value.libs| ==>
                    r.value.libs[i] == expand(LibLines(LibsOption(section))[i]))
    ensures r.Ok? && "libs" !in section ==> r.value.libs == []
    ensures r.Ok? && (forall p :: p != "" ==> expand(p) != "") ==>
              forall i :: 0 <= i < |r.value.libs| ==> r.value.libs[i] != ""
  {
    if "name" !in section then Err(MissingOption("name"))
    else if "path" !in section then Err(MissingOption("path"))
    else if "files" !in section then Err(MissingOption("files"))
    else
      var lines := LibLines(LibsOption(section));
      var config := ProjectConfig(
        section["name"],
        expand(section["path"]),
        FileTypes(section["files"]),
        seq(|lines|, i requires 0 <= i < |lines| => expand(lines[i])));
      if config.path !in dirs then Err(PathNotFound(config.path))
      else Ok(config)
  }
}

=== FILE: connection.dfy ===
/**
 * The editor's connection to the index file `cscope.out`. The first time
 * the index is found it is added to the editor's cscope connections; every
 * later time the existing connection is only reset, because adding the
 * same database twice is an error for the editor.
 */
module Connection {
  import opened Results

  /** The two editor commands this state machine issues. */
  datatype Command = Add(database: string) | Reset

  /** The editor command line for a connection command. */
  function CommandLine(command: Command): string
  {
    match command
    case Add(database) => "cscope add " + database
    case Reset => "cscope reset"
  }

  /** Distinct commands give distinct command lines, so the line the editor
      receives determines the command, including the database added. */
  lemma CommandLineInjective(a: Command, b: Command)
    ensures CommandLine(a) == CommandLine(b) <==> a == b
  {
    match (a, b)
    case (Add(x), Add(y)) =>
      assert CommandLine(a)[11..] == x && CommandLine(b)[11..] == y;
    case (Add(_), Reset) =>
      assert CommandLine(a)[7] != CommandLine(b)[7];
    case (Reset, Add(_)) =>
      assert CommandLine(a)[7] != CommandLine(b)[7];
    case (Reset, Reset) =>
  }

  /** The connection flag after a step and the command the step issued. */
  datatype Step = Step(connected: bool, issued: Option<Command>)

  /** One connection step, given whether the index file `out` exists. */
  function InitCscope(connected: bool, outExists: bool, out: string): (step: Step)
    ensures !outExists ==> step == Step(connected, None)
    ensures outExists ==> step.connected
    ensures step.issued == Some(Add(out)) <==> outExists && !connected
    ensures step.issued == Some(Reset) <==> outExists && connected
  {
    if outExists then
      if connected then Step(true, Some(Reset))
      else Step(true, Some(Add(out)))
    else Step(connected, None)
  }

  /** The flag and the commands after a series of steps, one per entry of
      `sightings` (whether the index file existed at that step). */
  function Replay(connected: bool, sightings: seq<bool>, out: string): (bool, seq<Command>)
    decreases |sightings|
  {
    if |sightings| == 0 then (connected, [])
    else
      var step := InitCscope(connected, sightings[0], out);
      var rest := Replay(step.connected, sightings[1..], out);
      (rest.0, (if step.issued.Some? then [step.issued.value] else []) + rest.1)
  }

  /** Over any series of steps: one command per sighting of the index, the
      flag ends set exactly when it started set or the index was seen, and
      the only `add` is the very first command when starting unconnected;
      every other command is a reset. So `add` is never issued twice. */
  lemma {:induction false} ReplayAddsOnce(connected: bool, sightings: seq<bool>, out: string)
    ensures var (final, commands) := Replay(connected, sightings, out);
      && final == (connected || true in sightings)
      && |commands| == multiset(sightings)[true]
      && (forall i :: 0 <= i < |commands| ==>
            commands[i] == (if i == 0 && !connected then Add(out) else Reset))
    decreases |sightings|
  {
    if |sightings| > 0 {
      var step := InitCscope(connected, sightings[0], out);
      var rest := Replay(step.connected, sightings[1..], out);
      var issued := if step.issued.Some? then [step.issued.value] else [];
      assert Replay(connected, sightings, out) == (rest.0, issued + rest.1);
      ReplayAddsOnce(step.connected, sightings[1..], out);
      assert sightings == [sightings[0]] + sightings[1..];
      assert multiset(sightings) == multiset([sightings[0]]) + multiset(sightings[1..]);
      assert true in sightings <==> sightings[0] || true in sightings[1..];
      var commands := issued + rest.1;
      forall i | 0 <= i < |commands|
        ensures commands[i] == (if i == 0 && !connected then Add(out) else Reset)
      {
        if i >= |issued| {
          assert commands[i] == rest.1[i - |issued|];
        }
      }
    }
  }
}

=== FILE: find_command.dfy ===
/**
 * The argument vector of the `find` process that lists the files to index:
 * every library path, then the project path, then one `-name <pattern>`
 * test per file type, consecutive tests separated by `-o`.
 */
module FindCommand {
  import opened Results
  import opened Configuration

  type Argv = seq<string>

  /** `-name t0 -o -name t1 ... -o -name tn`; empty for no patterns. */
  function NameClauses(types: seq<string>): seq<string>
    decreases |types|
  {
    if |types| == 0 then []
    else if |types| == 1 then ["-name", types[0]]
    else ["-name", types[0], "-o"] + NameClauses(types[1..])
  }

  /** The layout of the command: the library paths are extra starting points
      placed before the project path, and the project path opens the `-name`
      tests, which `find` applies below every starting point. The project
      path is only emitted together with the first test, so a configuration
      without file types would produce no project path at all. */
  function FindArgv(config: ProjectConfig): (argv: Argv)
    ensures |argv| >= 1 + |config.libs| && argv[0] == "find"
    ensures argv[1..1 + |config.libs|] == config.libs
  {
    ["find"] + config.libs
    + (if |config.fileTypes| == 0 then [] else [config.path] + NameClauses(config.fileTypes))
  }

  /** Appending a pattern appends `-o -name pattern`. */
  lemma {:induction false} NameClausesSnoc(types: seq<string>, t: string)
    requires |types| >= 1
    ensures NameClauses(types + [t]) == NameClauses(types) + ["-o", "-name", t]
    decreases |types|
  {
    if |types| == 1 {
      assert types + [t] == [types[0], t];
      assert (types + [t])[1..] == [t];
    } else {
      assert (types + [t])[1..] == types[1..] + [t];
      NameClausesSnoc(types[1..], t);
    }
  }

  /** Builds the command the way the plugin does: with no command at all
      unless the plugin is ready, otherwise `find`, each library path, and
      for each file type the project path (first time) or `-o` (later times)
      followed by `-name` and the pattern. */
  method GenCscopeFiles(ready: bool, config: ProjectConfig) returns (cmd: Option<Argv>)
    ensures !ready ==> cmd == None
    ensures ready ==> cmd == Some(FindArgv(config))
  {
    cmd := None;
    if ready {
      var argv := ["find"];
      for i := 0 to |config.libs|
        invariant argv == ["find"] + config.libs[..i]
      {
        argv := argv + [config.libs[i]];
      }
      assert config.libs[..|config.libs|] == config.libs;
      var first := true;
      for j := 0 to |config.fileTypes|
        invariant first <==> j == 0
        invariant argv == ["find"] + config.libs
                    + (if j == 0 then [] else [config.path] + NameClauses(config.fileTypes[..j]))
      {
        if first {
          argv := argv + [config.path];
          first := false;
        } else {
          argv := argv + ["-o"];
        }
        argv := argv + ["-name"];
        argv := argv + [config.fileTypes[j]];
        assert config.fileTypes[..j + 1] == config.fileTypes[..j] + [config.fileTypes[j]];
        if j > 0 {
          NameClausesSnoc(config.fileTypes[..j], config.fileTypes[j]);
        }
      }
      assert config.fileTypes[..|config.fileTypes|] == config.fileTypes;
      cmd := Some(argv);
    }
  }

  /** Pattern `k` sits at offset `3k+1` behind its `-name`, and every pattern
      but the first is preceded by `-o`; the tests take `3n-1` words. */
  lemma {:induction false} NameClausesShape(types: seq<string>)
    requires |types| >= 1
    ensures |NameClauses(types)| == 3 * |types| - 1
    ensures forall k :: 0 <= k < |types| ==>
              && NameClauses(types)[3 * k] == "-name"
              && NameClauses(types)[3 * k + 1] == types[k]
              && (k > 0 ==> NameClauses(types)[3 * k - 1] == "-o")
    decreases |types|
  {
    if |types| > 1 {
      var tail := types[1..];
      NameClausesShape(tail);
      var c := NameClauses(types);
      assert c == ["-name", types[0], "-o"] + NameClauses(tail);
      forall k | 1 <= k < |types|
        ensures c[3 * k] == "-name" && c[3 * k + 1] == types[k] && c[3 * k - 1] == "-o"
      {
        assert tail[k - 1] == types[k];
        if k > 1 {
          assert c[3 * k - 1] == NameClauses(tail)[3 * (k - 1) - 1];
        }
        assert c[3 * k] == NameClauses(tail)[3 * (k - 1)];
        assert c[3 * k + 1] == NameClauses(tail)[3 * (k - 1) + 1];
      }
    }
  }

  /** The command's structure, position by position: `find`, the library
      paths in their order, the project path once, then the tests. Its length
      is `2 + |libs| + 3 * |fileTypes| - 1`. */
  lemma FindArgvLayout(config: ProjectConfig)
    requires |config.fileTypes| >= 1
    ensures var argv := FindArgv(config);
      var n := |config.libs|;
      && |argv| == 2 + n + 3 * |config.fileTypes| - 1
      && argv[0] == "find"
      && argv[1..1 + n] == config.libs
      && argv[1 + n] == config.path
      && argv[2 + n] == "-name"
      && (forall k :: 0 <= k < |config.fileTypes| ==>
            && argv[2 + n + 3 * k] == "-name"
            && argv[3 + n + 3 * k] == config.fileTypes[k]
            && (k > 0 ==> argv[1 + n + 3 * k] == "-o"))
  {
    var argv := FindArgv(config);
    var n := |config.libs|;
    var clauses := NameClauses(config.fileTypes);
    NameClausesShape(config.fileTypes);
    assert argv == ["find"] + config.libs + [config.path] + clauses;
    assert argv[2 + n..] == clauses;
    forall k | 0 <= k < |config.fileTypes|
      ensures argv[2 + n + 3 * k] == "-name" && argv[3 + n + 3 * k] == config.fileTypes[k]
      ensures k > 0 ==> argv[1 + n + 3 * k] == "-o"
    {
      assert argv[2 + n + 3 * k] == clauses[3 * k];
      assert argv[3 + n + 3 * k] == clauses[3 * k + 1];
      if k > 0 {
        assert argv[1 + n + 3 * k] == clauses[3 * k - 1];
      }
    }
  }

  /** How many entries of `words` are exactly `w`. */
  function Occurrences(words: seq<string>, w: string): nat
    decreases |words|
  {
    if |words| == 0 then 0
    else (if words[0] == w then 1 else 0) + Occurrences(words[1..], w)
  }

  lemma {:induction false} OccurrencesAppend(a: seq<string>, b: seq<string>, w: string)
    ensures Occurrences(a + b, w) == Occurrences(a, w) + Occurrences(b, w)
    decreases |a|
  {
    if |a| == 0 {
      assert a + b == b;
    } else {
      assert (a + b)[1..] == a[1..] + b;
      OccurrencesAppend(a[1..], b, w);
    }
  }

  /** The tests contain one `-o` per gap between patterns, plus any pattern
      that is itself the word `-o`. */
  lemma {:induction false} SeparatorCount(types: seq<string>)
    requires |types| >= 1
    ensures Occurrences(NameClauses(types), "-o") == |types| - 1 + Occurrences(types, "-o")
    decreases |types|
  {
    assert "-name" != "-o" by { assert "-name"[1] != "-o"[1]; }
    var t := types[0];
    assert Occurrences(["-name", t], "-o") == Occurrences([t], "-o") by {
      assert ["-name", t][1..] == [t];
    }
    if |types| == 1 {
      assert types == [t];
    } else {
      var rest := types[1..];
      SeparatorCount(rest);
      assert types == [t] + rest;
      OccurrencesAppend([t], rest, "-o");
      assert NameClauses(types) == ["-name", t] + (["-o"] + NameClauses(rest));
      OccurrencesAppend(["-name", t], ["-o"] + NameClauses(rest), "-o");
      OccurrencesAppend(["-o"], NameClauses(rest), "-o");
    }
  }

  /** When no library path, project path or pattern is the word `-o`, the
      command holds exactly `|fileTypes| - 1` of them. */
  lemma FindSeparatorCount(config: ProjectConfig)
    requires |config.fileTypes| >= 1
    requires "-o" !in config.libs && config.path != "-o" && "-o" !in config.fileTypes
    ensures Occurrences(FindArgv(config), "-o") == |config.fileTypes| - 1
  {
    SeparatorCount(config.fileTypes);
    OccurrencesAbsent(config.libs, "-o");
    OccurrencesAbsent(config.fileTypes, "-o");
    assert "find" != "-o" by { assert "find"[0] != "-o"[0]; }
    var front := ["find"] + config.libs + [config.path];
    assert FindArgv(config) == front + NameClauses(config.fileTypes);
    OccurrencesAppend(front, NameClauses(config.fileTypes), "-o");
    OccurrencesAppend(["find"] + config.libs, [config.path], "-o");
    OccurrencesAppend(["find"], config.libs, "-o");
  }

  lemma {:induction false} OccurrencesAbsent(words: seq<string>, w: string)
    requires w !in words
    ensures Occurrences(words, w) == 0
    decreases |words|
  {
    if |words| > 0 {
      assert words == [words[0]] + words[1..];
      OccurrencesAbsent(words[1..], w);
    }
  }

  /** The parts a `find` command line was built from. */
  datatype FindQuery = FindQuery(libs: seq<string>, path: string, fileTypes: seq<string>)

  /** Reads back `-name t0 -o -name t1 ...`; None when the words do not
      have that shape. */
  function DecodeClauses(words: seq<string>): Option<seq<string>>
    decreases |words|
  {
    if |words| < 2 || words[0] != "-name" then None
    else if |words| == 2 then Some([words[1]])
    else if words[2] != "-o" then None
    else match DecodeClauses(words[3..])
      case None => None
      case Some(rest) => Some([words[1]] + rest)
  }

  /** Reads back a `find` command given how many library paths it starts with. */
  function DecodeFind(argv: Argv, libCount: nat): Option<FindQuery>
  {
    if |argv| < 2 + libCount || argv[0] != "find" then None
    else match DecodeClauses(argv[2 + libCount..])
      case None => None
      case Some(types) => Some(FindQuery(argv[1..1 + libCount], argv[1 + libCount], types))
  }

  lemma {:induction false} DecodeNameClauses(types: seq<string>)
    requires |types| >= 1
    ensures DecodeClauses(NameClauses(types)) == Some(types)
    decreases |types|
  {
    if |types| > 1 {
      var words := NameClauses(types);
      assert words == ["-name", types[0], "-o"] + NameClauses(types[1..]);
      assert words[3..] == NameClauses(types[1..]);
      DecodeNameClauses(types[1..]);
      assert [types[0]] + types[1..] == types;
    } else {
      assert types == [types[0]];
    }
  }

  lemma {:induction false} EncodeDecodedClauses(words: seq<string>)
    requires DecodeClauses(words).Some?
    ensures |DecodeClauses(words).value| >= 1
    ensures NameClauses(DecodeClauses(words).value) == words
    decreases |words|
  {
    if |words| > 2 {
      EncodeDecodedClauses(words[3..]);
      var rest := DecodeClauses(words[3..]).value;
      var types := [words[1]] + rest;
      assert types[1..] == rest;
      assert words == ["-name", words[1], "-o"] + words[3..];
    } else {
      assert words == ["-name", words[1]];
    }
  }

  /** Round trip: the libraries, the project path and the patterns can be
      read back from the command, given the number of libraries. */
  lemma DecodeFindArgv(config: ProjectConfig)
    requires |config.fileTypes| >= 1
    ensures DecodeFind(FindArgv(config), |config.libs|)
              == Some(FindQuery(config.libs, config.path, config.fileTypes))
  {
    var argv := FindArgv(config);
    var n := |config.libs|;
    NameClausesShape(config.fileTypes);
    assert argv == ["find"] + config.libs + [config.path] + NameClauses(config.fileTypes);
    assert argv[2 + n..] == NameClauses(config.fileTypes);
    assert argv[1..1 + n] == config.libs;
    DecodeNameClauses(config.fileTypes);
  }

  /** Conversely, every command the decoder accepts is the one built from
      what it reads back, so no other shape is a valid `find` command. */
  lemma EncodeDecodedFind(argv: Argv, libCount: nat, name: string)
    requires DecodeFind(argv, libCount).Some?
    ensures var q := DecodeFind(argv, libCount).value;
      && |q.libs| == libCount
      && |q.fileTypes| >= 1
      && FindArgv(ProjectConfig(name, q.path, q.fileTypes, q.libs)) == argv
  {
    var q := DecodeFind(argv, libCount).value;
    var rest := argv[2 + libCount..];
    assert q == FindQuery(argv[1..1 + libCount], argv[1 + libCount], DecodeClauses(rest).value);
    EncodeDecodedClauses(rest);
    assert [q.path] + NameClauses(q.fileTypes) == argv[1 + libCount..];
    assert argv == ["find"] + q.libs + argv[1 + libCount..];
  }
}

=== FILE: paths.dfy ===
/** POSIX path joining, as Python's `os.path.join` does it on a POSIX host. */
module Paths {

  /** `os.path.join(base, part)`: an absolute `part` replaces `base`; otherwise
      a single `/` is inserted unless `base` is empty or already ends in one. */
  function PathJoin(base: string, part: string): (joined: string)
    ensures |joined| >= |part| && joined[|joined| - |part|..] == part
    ensures |part| > 0 && part[0] == '/' ==> joined == part
    ensures (|part| == 0 || part[0] != '/') ==>
              |joined| >= |base| && joined[..|base|] == base
    ensures (|part| == 0 || part[0] != '/') ==>
              |base| + |part| <= |joined| <= |base| + |part| + 1
    ensures (|part| == 0 || part[0] != '/') ==>
              (|joined| == |base| + |part| + 1 <==> |base| > 0 && base[|base| - 1] != '/')
    ensures |joined| == |base| + |part| + 1 ==> joined[|base|] == '/'
  {
    if |part| > 0 && part[0] == '/' then part
    else if |base| == 0 || base[|base| - 1] == '/' then base + part
    else base + "/" + part
  }
}

=== FILE: plugin.dfy ===
/**
 * The plugin's handlers as transitions of its state: `CScopeStart` reads
 * the configuration, prepares the workspace directory and builds the `find`
 * command; `CScopeUpdate` regenerates `cscope.files` and `cscope.out` and
 * then attaches the editor to the index. Host facilities are parameters:
 * home-directory expansion, the working directory, the parsed configuration
 * files, which directories can be created, and how the subprocesses fare.
 */
module Plugin {
  import opened Results
  import opened Paths
  import opened Configuration
  import opened FindCommand
  import Connection

  /** The `cmd_cscope_files` attribute: never assigned, assigned `None`, or a command. */
  datatype CommandSlot = Unset | NotReady | Built(argv: Argv)

  /** The slot holds a command that the update's truth test accepts:
      assigned, and not the empty list. */
  predicate Runnable(slot: CommandSlot)
  {
    slot.Built? && slot.argv != []
  }

  /** The plugin attributes the handlers read and write. */
  datatype State = State(
    ready: bool,                  // cscope_ready
    connected: bool,              // cscope_connection_ready
    cscopeDir: Option<string>,    // cscope_dir, absent until the first start
    projectName: Option<string>,  // config['project_name'], absent when not recorded
    command: CommandSlot)         // cmd_cscope_files

  /** The plugin as constructed, before any handler ran. */
  const Fresh := State(false, false, None, None, Unset)

  /** Which paths are directories and which are regular files. */
  datatype Disk = Disk(dirs: set<string>, files: set<string>)

  /** The editor's global variables and the file system. */
  datatype World = World(vars: map<string, string>, disk: Disk)

  /** Host facilities the plugin only calls: `os.path.expanduser`, `os.getcwd()`,
      the `[root]` sections of the readable configuration files by path, and
      the paths `os.mkdir` would succeed on. */
  datatype Host = Host(
    expand: string -> string,
    cwd: string,
    configs: map<string, Section>,
    creatable: set<string>)

  /** How one update's subprocesses and file accesses turn out. */
  datatype UpdateEnv = UpdateEnv(
    writable: bool,         // `cscope.files` can be opened for writing
    findStarts: bool,       // the `find` process can be started
    cscopeStarts: bool,     // the `cscope` process can be started
    cscopeWritesOut: bool)  // the `cscope` run leaves `cscope.out` behind

  /** Why regenerating `cscope.files` failed. */
  datatype FilesError = CommandNotReady | CannotWrite(path: string) | CannotRunFind

  /** The failures the handlers echo to the user. */
  datatype Report =
    | ConfigFileMissing(shown: string)
    | ConfigRejected(error: ConfigError)
    | WorkspaceFailed(dir: string)
    | FilesFailed(reason: FilesError)
    | FileListMissing

  /** The state after a handler, the world it leaves, the processes it
      started in order, the reports it echoed and the editor command lines it
      ran (in both handlers every echo comes before every command line), and
      whether an uncaught exception ended it early. */
  datatype Outcome = Outcome(
    state: State,
    world: World,
    spawned: seq<Argv>,
    reports: seq<Report>,
    commands: seq<string>,
    aborted: bool)

  const DefaultCscopeDir := "~/.cscope"
  const DefaultConfigName := "cscope.cfg"
  const FileListName := "cscope.files"
  const IndexName := "cscope.out"

  /** The indexer's command line: quiet, build only, reading the file list. */
  function CscopeArgv(fileList: string, index: string): (argv: Argv)
    ensures |argv| == 8 && argv[0] == "cscope"
    ensures argv[5] == fileList && argv[7] == index
  {
    ["cscope", "-q", "-R", "-b", "-i", fileList, "-f", index]
  }

  /** The project's directory inside the base directory, once both are known. */
  function Workspace(s: State): (dir: Option<string>)
    ensures dir.Some? <==> s.cscopeDir.Some? && s.projectName.Some?
    ensures dir.Some? ==> dir.value == PathJoin(s.cscopeDir.value, s.projectName.value)
  {
    if s.cscopeDir.Some? && s.projectName.Some? then
      Some(PathJoin(s.cscopeDir.value, s.projectName.value))
    else None
  }

  /** The result of preparing the workspace: the disk afterwards and the
      directory whose creation failed, if any. */
  datatype DirSetup = DirSetup(disk: Disk, failed: Option<string>)

  /** Creates the base directory and the project directory below it, each
      only when it is not a directory already. A failure after the first
      `mkdir` leaves that directory in place. */
  function CreateCscopeDir(disk: Disk, creatable: set<string>, base: string, name: string)
    : (setup: DirSetup)
    ensures setup.disk.files == disk.files && disk.dirs <= setup.disk.dirs
    ensures setup.failed.None? <==>
              && (base in disk.dirs || base in creatable)
              && (PathJoin(base, name) in disk.dirs + {base} || PathJoin(base, name) in creatable)
    ensures setup.failed.None? ==>
              setup.disk.dirs == disk.dirs + {base, PathJoin(base, name)}
    ensures setup.failed.Some? ==>
              setup.failed.value in {base, PathJoin(base, name)} && setup.failed.value !in setup.disk.dirs
    ensures setup.failed == Some(base) <==> base !in disk.dirs && base !in creatable
    ensures setup.failed == Some(base) ==> setup.disk == disk
    ensures setup.failed.Some? && setup.failed != Some(base) ==>
              && setup.failed == Some(PathJoin(base, name))
              && setup.disk.dirs == disk.dirs + {base}
    ensures setup.disk.dirs <= disk.dirs + {base, PathJoin(base, name)}
  {
    var project := PathJoin(base, name);
    if base !in disk.dirs && base !in creatable then DirSetup(disk, Some(base))
    else
      var made := disk.(dirs := disk.dirs + {base});
      if project !in made.dirs && project !in creatable then DirSetup(made, Some(project))
      else DirSetup(made.(dirs := made.dirs + {project}), None)
  }

  /** Preparing the workspace a second time never fails, whatever the host
      would allow, and changes nothing. */
  lemma CreateCscopeDirIdempotent(disk: Disk, creatable: set<string>, creatable': set<string>,
                                  base: string, name: string)
    requires CreateCscopeDir(disk, creatable, base, name).failed.None?
    ensures var again := CreateCscopeDir(disk, creatable, base, name).disk;
      CreateCscopeDir(again, creatable', base, name) == DirSetup(again, None)
  {
    var again := CreateCscopeDir(disk, creatable, base, name).disk;
    assert base in again.dirs && PathJoin(base, name) in again.dirs;
    assert again.(dirs := again.dirs + {base}) == again;
  }

  /** Finds the configuration file: the single argument if there is exactly
      one (checked for existence before home-directory expansion), otherwise
      the default name in the working directory. The error carries the name
      shown to the user. */
  function LocateConfig(args: seq<string>, configName: string, disk: Disk, host: Host)
    : (r: Result<string, string>)
    ensures |args| == 1 ==> (r.Ok? <==> args[0] in disk.files)
    ensures |args| == 1 && r.Ok? ==> r.value == host.expand(args[0])
    ensures |args| == 1 && r.Err? ==> r.error == args[0]
    ensures |args| != 1 ==> (r.Ok? <==> PathJoin(host.cwd, configName) in disk.files)
    ensures |args| != 1 && r.Ok? ==> r.value == PathJoin(host.cwd, configName)
    ensures |args| != 1 && r.Err? ==> r.error == configName
  {
    if |args| == 1 then
      if args[0] in disk.files then Ok(host.expand(args[0])) else Err(args[0])
    else
      var path := PathJoin(host.cwd, configName);
      if path in disk.files then Ok(path) else Err(configName)
  }

  /** The editor commands a successful start issues on request. */
  function AutoCommands(vars: map<string, string>): (commands: seq<string>)
    ensures "CScopeUpdate" in commands <==> "cscope_update_on_start" in vars
    ensures "CScopeMapKeys" in commands <==> "cscope_map_keys" in vars
    ensures |commands| <= 2
    ensures forall i :: 0 <= i < |commands| ==>
              commands[i] == "CScopeUpdate" || commands[i] == "CScopeMapKeys"
    ensures forall i, j :: 0 <= i < j < |commands| ==>
              commands[i] == "CScopeUpdate" && commands[j] == "CScopeMapKeys"
  {
    (if "cscope_update_on_start" in vars then ["CScopeUpdate"] else [])
    + (if "cscope_map_keys" in vars then ["CScopeMapKeys"] else [])
  }

  /** The editor variables with the default base directory and the default
      configuration name filled in where they are not set. */
  function WithDefaults(vars: map<string, string>): (filled: map<string, string>)
    ensures filled.Keys == vars.Keys + {"cscope_dir", "cscope_config"}
    ensures forall k :: k in vars ==> filled[k] == vars[k]
    ensures "cscope_dir" !in vars ==> filled["cscope_dir"] == DefaultCscopeDir
    ensures "cscope_config" !in vars ==> filled["cscope_config"] == DefaultConfigName
  {
    var withDir := if "cscope_dir" in vars then vars else vars["cscope_dir" := DefaultCscopeDir];
    if "cscope_config" in withDir then withDir else withDir["cscope_config" := DefaultConfigName]
  }

  /** The part of `CScopeStart` after the configuration file was read:
      parse it, prepare the workspace, and on success become ready with the
      `find` command built. Each failure ends it with one report. */
  function Configure(s: State, world: World, host: Host, section: Section): (o: Outcome)
    requires !s.ready && s.cscopeDir.Some?
    ensures !o.aborted && o.spawned == [] && o.world.vars == world.vars
    ensures o.state.connected == s.connected && o.state.cscopeDir == s.cscopeDir
    ensures o.state.projectName == (if "name" in section then Some(section["name"]) else None)
    ensures o.world.disk.files == world.disk.files && world.disk.dirs <= o.world.disk.dirs
    ensures o.state.ready <==> o.reports == []
    ensures !o.state.ready ==>
              |o.reports| == 1 && o.commands == [] && o.state.command == s.command
    ensures o.state.ready ==>
              && ParseConfig(section, host.expand, world.disk.dirs).Ok?
              && o.state.command == Built(FindArgv(ParseConfig(section, host.expand, world.disk.dirs).value))
              && |o.state.command.argv| >= 1 && o.state.command.argv[0] == "find"
              && Workspace(o.state).Some? && Workspace(o.state).value in o.world.disk.dirs
              && o.commands == AutoCommands(world.vars)
    ensures o.state.ready <==>
              && ParseConfig(section, host.expand, world.disk.dirs).Ok?
              && CreateCscopeDir(world.disk, host.creatable, s.cscopeDir.value,
                   ParseConfig(section, host.expand, world.disk.dirs).value.name).failed.None?
    ensures var parsed := ParseConfig(section, host.expand, world.disk.dirs);
      parsed.Err? ==> o.world == world && o.reports == [ConfigRejected(parsed.error)]
    ensures var parsed := ParseConfig(section, host.expand, world.disk.dirs);
      parsed.Ok? ==>
        var setup := CreateCscopeDir(world.disk, host.creatable, s.cscopeDir.value, parsed.value.name);
        && o.world.disk == setup.disk
        && (setup.failed.Some? ==> o.reports == [WorkspaceFailed(setup.failed.value)])
  {
    var s' := s.(projectName := if "name" in section then Some(section["name"]) else None);
    match ParseConfig(section, host.expand, world.disk.dirs)
    case Err(e) => Outcome(s', world, [], [ConfigRejected(e)], [], false)
    case Ok(config) =>
      var setup := CreateCscopeDir(world.disk, host.creatable, s.cscopeDir.value, config.name);
      var world' := world.(disk := setup.disk);
      if setup.failed.Some? then
        Outcome(s', world', [], [WorkspaceFailed(setup.failed.value)], [], false)
      else
        Outcome(s'.(ready := true, command := Built(FindArgv(config))), world', [], [],
                AutoCommands(world.vars), false)
  }

  /** The part of `CScopeStart` after the defaults are in place: report a
      configuration file that was not found, raise when it cannot be opened,
      and otherwise continue with `Configure`. */
  function Load(s: State, world: World, host: Host, located: Result<string, string>): (o: Outcome)
    requires !s.ready && s.cscopeDir.Some?
    ensures o.state.connected == s.connected && o.state.cscopeDir == s.cscopeDir
    ensures o.state.ready <==> !o.aborted && o.reports == []
    ensures !o.state.ready ==> |o.reports| <= 1 && o.commands == [] && o.state.command == s.command
    ensures !o.state.ready && !o.aborted ==> |o.reports| == 1
    ensures o.state.ready ==>
              && o.state.command.Built? && |o.state.command.argv| >= 1
              && o.state.command.argv[0] == "find"
              && Workspace(o.state).Some? && Workspace(o.state).value in o.world.disk.dirs
              && o.commands == AutoCommands(world.vars)
    ensures o.spawned == [] && o.world.vars == world.vars
    ensures o.world.disk.files == world.disk.files && world.disk.dirs <= o.world.disk.dirs
    ensures located.Err? ==>
              && !o.aborted && o.state == s && o.world == world
              && o.reports == [ConfigFileMissing(located.error)]
    ensures located.Ok? && located.value !in host.configs ==>
              && o.aborted && o.reports == [] && o.world == world && o.state.projectName.None?
    ensures located.Ok? && located.value in host.configs ==>
              o == Configure(s, world, host, host.configs[located.value])
  {
    match located
    case Err(shown) => Outcome(s, world, [], [ConfigFileMissing(shown)], [], false)
    case Ok(confPath) =>
      // the configuration dictionary is emptied before the file is opened
      if confPath !in host.configs then Outcome(s.(projectName := None), world, [], [], [], true)
      else Configure(s, world, host, host.configs[confPath])
  }

  /** `CScopeStart`: clears both flags, fills in the default base directory
      and configuration name, and loads the configuration. The plugin is
      ready exactly when nothing was reported and no exception escaped;
      otherwise the previous command stays stored. */
  function Start(s: State, world: World, host: Host, args: seq<string>): (o: Outcome)
    ensures !o.state.connected
    ensures o.state.ready <==> !o.aborted && o.reports == []
    ensures !o.state.ready ==> |o.reports| <= 1 && o.commands == [] && o.state.command == s.command
    ensures !o.state.ready && !o.aborted ==> |o.reports| == 1
    ensures o.state.ready ==>
              && o.state.command.Built? && |o.state.command.argv| >= 1
              && o.state.command.argv[0] == "find"
              && Workspace(o.state).Some? && Workspace(o.state).value in o.world.disk.dirs
              && o.commands == AutoCommands(world.vars)
    ensures o.spawned == []
    ensures o.world.disk.files == world.disk.files && world.disk.dirs <= o.world.disk.dirs
    ensures o.world.vars == WithDefaults(world.vars)
    ensures o.state.cscopeDir == Some(host.expand(o.world.vars["cscope_dir"]))
  {
    var vars := WithDefaults(world.vars);
    var s1 := s.(ready := false, connected := false,
                 cscopeDir := Some(host.expand(vars["cscope_dir"])));
    var w1 := world.(vars := vars);
    assert AutoCommands(vars) == AutoCommands(world.vars);
    Load(s1, w1, host, LocateConfig(args, vars["cscope_config"], world.disk, host))
  }

  /** The configuration `Start` reads, when the file is found and readable. */
  function StartSection(world: World, host: Host, args: seq<string>): Option<Section>
  {
    var vars := WithDefaults(world.vars);
    match LocateConfig(args, vars["cscope_config"], world.disk, host)
    case Err(_) => None
    case Ok(path) => if path in host.configs then Some(host.configs[path]) else None
  }

  /** The start gate: the plugin becomes ready exactly when the configuration
      file is found and parses and the workspace can be prepared; the command
      is then the `find` command of that configuration. */
  lemma StartReadyGate(s: State, world: World, host: Host, args: seq<string>)
    ensures var o := Start(s, world, host, args);
      var section := StartSection(world, host, args);
      o.state.ready <==>
        && section.Some?
        && ParseConfig(section.value, host.expand, world.disk.dirs).Ok?
        && CreateCscopeDir(world.disk, host.creatable, o.state.cscopeDir.value,
             ParseConfig(section.value, host.expand, world.disk.dirs).value.name).failed.None?
    ensures var o := Start(s, world, host, args);
      var section := StartSection(world, host, args);
      o.state.ready ==>
        && section.Some? && ParseConfig(section.value, host.expand, world.disk.dirs).Ok?
        && o.state.command == Built(FindArgv(ParseConfig(section.value, host.expand, world.disk.dirs).value))
  {
    var vars := WithDefaults(world.vars);
    var located := LocateConfig(args, vars["cscope_config"], world.disk, host);
    if located.Ok? && located.value in host.configs {
      var s1 := s.(ready := false, connected := false,
                   cscopeDir := Some(host.expand(vars["cscope_dir"])));
      assert Start(s, world, host, args)
          == Load(s1, world.(vars := vars), host, located);
      assert Start(s, world, host, args)
          == Configure(s1, world.(vars := vars), host, host.configs[located.value]);
    }
  }

  /** A configuration file that cannot be found is reported under the name
      the user gave, and one that cannot be opened raises; neither touches
      the disk. */
  lemma StartConfigFileFailures(s: State, world: World, host: Host, args: seq<string>)
    ensures var o := Start(s, world, host, args);
      var located := LocateConfig(args, WithDefaults(world.vars)["cscope_config"], world.disk, host);
      && (located.Err? ==>
            !o.aborted && o.reports == [ConfigFileMissing(located.error)] && o.world.disk == world.disk)
      && (located.Ok? && located.value !in host.configs ==>
            o.aborted && o.reports == [] && o.world.disk == world.disk)
  {
    var vars := WithDefaults(world.vars);
    var s1 := s.(ready := false, connected := false,
                 cscopeDir := Some(host.expand(vars["cscope_dir"])));
    assert Start(s, world, host, args)
        == Load(s1, world.(vars := vars), host, LocateConfig(args, vars["cscope_config"], world.disk, host));
  }

  /** A configuration that is found but rejected is reported with the
      parser's error, the plugin is not ready, and no directory is created. */
  lemma StartRejectsConfig(s: State, world: World, host: Host, args: seq<string>)
    requires StartSection(world, host, args).Some?
    requires ParseConfig(StartSection(world, host, args).value, host.expand, world.disk.dirs).Err?
    ensures var o := Start(s, world, host, args);
      && !o.aborted && !o.state.ready
      && o.reports == [ConfigRejected(ParseConfig(StartSection(world, host, args).value,
                                                  host.expand, world.disk.dirs).error)]
      && o.world.disk == world.disk
  {
    var vars := WithDefaults(world.vars);
    var located := LocateConfig(args, vars["cscope_config"], world.disk, host);
    var s1 := s.(ready := false, connected := false,
                 cscopeDir := Some(host.expand(vars["cscope_dir"])));
    assert Start(s, world, host, args)
        == Configure(s1, world.(vars := vars), host, host.configs[located.value]);
  }

  /** A configuration naming the project but without a `path` option fails
      with that missing option and creates no workspace directory. */
  lemma StartMissingPath(s: State, world: World, host: Host, args: seq<string>)
    requires StartSection(world, host, args).Some?
    requires "name" in StartSection(world, host, args).value
    requires "path" !in StartSection(world, host, args).value
    ensures var o := Start(s, world, host, args);
      && !o.state.ready
      && o.reports == [ConfigRejected(MissingOption("path"))]
      && o.world.disk == world.disk
  {
    StartRejectsConfig(s, world, host, args);
  }

  /** A start leaves the command slot assigned-but-empty only when it
      already was. Since the plugin starts with the slot unassigned, no run
      of start and update handlers reaches the "command not ready" report. */
  lemma StartNeverNotReady(s: State, world: World, host: Host, args: seq<string>)
    ensures Start(s, world, host, args).state.command.NotReady? ==> s.command.NotReady?
    ensures !Start(Fresh, world, host, args).state.command.NotReady?
  {
  }

  /** `__update_cscope_files`'s outcome: the disk afterwards, the process
      started, the failure reported, and whether an exception escaped. */
  datatype FilesStep = FilesStep(disk: Disk, spawned: seq<Argv>, failure: Option<FilesError>, aborted: bool)

  /** Regenerates `cscope.files` by running the stored command with its output
      sent to the file. Without a stored command it reports "not ready"; the
      attribute missing altogether, or the project name missing, raises. */
  function UpdateFiles(s: State, disk: Disk, env: UpdateEnv): (step: FilesStep)
    ensures s.command.Unset? ==> step.aborted && step.spawned == []
    ensures s.command.NotReady? ==> step == FilesStep(disk, [], Some(CommandNotReady), false)
    ensures step.aborted ==> step.failure.None? && step.disk == disk
    ensures step.spawned != [] ==>
              s.command.Built? && step.spawned == [s.command.argv] && step.failure.None? && !step.aborted
    ensures step.spawned != [] <==>
              && s.command.Built? && s.command.argv != [] && Workspace(s).Some?
              && Workspace(s).value in disk.dirs && env.writable && env.findStarts
    ensures |step.spawned| <= 1
    ensures step.disk.dirs == disk.dirs
    ensures step.disk.files <= disk.files + (if Workspace(s).Some? then {PathJoin(Workspace(s).value, FileListName)} else {})
    ensures step.spawned != [] ==> PathJoin(Workspace(s).value, FileListName) in step.disk.files
    ensures step.failure == Some(CommandNotReady) <==> s.command.NotReady? || (s.command.Built? && !Runnable(s.command))
    ensures step.aborted <==> s.command.Unset? || (Runnable(s.command) && Workspace(s).None?)
    ensures Runnable(s.command) && Workspace(s).Some? ==>
              var ws := Workspace(s).value;
              var list := PathJoin(ws, FileListName);
              && (step.failure == Some(CannotWrite(list)) <==> ws !in disk.dirs || !env.writable)
              && (step.failure == Some(CannotRunFind) <==> ws in disk.dirs && env.writable && !env.findStarts)
              && (ws in disk.dirs && env.writable ==> step.disk.files == disk.files + {list})
              && (ws !in disk.dirs || !env.writable ==> step.disk == disk)
    ensures Runnable(s.command) && Workspace(s).Some? ==>
              var ws := Workspace(s).value;
              var list := PathJoin(ws, FileListName);
              var written := ws in disk.dirs && env.writable;
              && step.spawned == (if written && env.findStarts then [s.command.argv] else [])
              && step.disk.files == disk.files + (if written then {list} else {})
              && (list in step.disk.files <==> list in disk.files || written)
    ensures !Runnable(s.command) || Workspace(s).None? ==> step.spawned == [] && step.disk == disk
  {
    match s.command
    case Unset => FilesStep(disk, [], None, true)
    case NotReady => FilesStep(disk, [], Some(CommandNotReady), false)
    case Built(argv) =>
      if argv == [] then FilesStep(disk, [], Some(CommandNotReady), false)
      else match Workspace(s)
        case None => FilesStep(disk, [], None, true)
        case Some(workspace) =>
          var list := PathJoin(workspace, FileListName);
          if workspace !in disk.dirs || !env.writable then
            FilesStep(disk, [], Some(CannotWrite(list)), false)
          else
            // opening the file for writing creates it before `find` starts
            var written := disk.(files := disk.files + {list});
            if !env.findStarts then FilesStep(written, [], Some(CannotRunFind), false)
            else FilesStep(written, [argv], None, false)
  }

  /** `__update_cscope_out`'s outcome: the disk afterwards, the process
      started, whether "file list missing" is reported, and whether an
      exception escaped. */
  datatype OutStep = OutStep(disk: Disk, spawned: seq<Argv>, listMissing: bool, aborted: bool)

  /** Rebuilds `cscope.out` from `cscope.files` when the file list exists.
      A `cscope` that cannot be started raises an exception the handler does
      not catch: it only catches errors that `subprocess.call` never raises. */
  function UpdateOut(s: State, disk: Disk, env: UpdateEnv): (step: OutStep)
    ensures Workspace(s).None? ==> step.aborted
    ensures Workspace(s).Some? ==>
              var list := PathJoin(Workspace(s).value, FileListName);
              var index := PathJoin(Workspace(s).value, IndexName);
              && (step.listMissing <==> list !in disk.files)
              && (step.aborted <==> list in disk.files && !env.cscopeStarts)
              && (step.spawned != [] <==> list in disk.files && env.cscopeStarts)
              && (step.spawned != [] ==> step.spawned == [CscopeArgv(list, index)])
              && step.disk.files == disk.files
                   + (if list in disk.files && env.cscopeStarts && env.cscopeWritesOut then {index} else {})
    ensures step.disk.dirs == disk.dirs
    ensures step.aborted ==> !step.listMissing && step.spawned == [] && step.disk == disk
  {
    match Workspace(s)
    case None => OutStep(disk, [], false, true)
    case Some(workspace) =>
      var list := PathJoin(workspace, FileListName);
      var index := PathJoin(workspace, IndexName);
      if list !in disk.files then OutStep(disk, [], true, false)
      else if !env.cscopeStarts then OutStep(disk, [], false, true)
      else
        var built := if env.cscopeWritesOut then disk.(files := disk.files + {index}) else disk;
        OutStep(built, [CscopeArgv(list, index)], false, false)
  }

  /** What `__init_cscope` did inside a handler: the connection flag
      afterwards, the command line it ran, and whether an exception escaped. */
  datatype Attach = Attach(connected: bool, issued: seq<string>, aborted: bool)

  /** `__init_cscope`: when `cscope.out` exists, add it the first time and
      reset the connection every later time; otherwise do nothing. */
  function AttachIndex(s: State, disk: Disk): (a: Attach)
    ensures a.aborted <==> Workspace(s).None?
    ensures a.aborted ==> a.issued == [] && a.connected == s.connected
    ensures Workspace(s).Some? ==>
              var index := PathJoin(Workspace(s).value, IndexName);
              && (index in disk.files ==>
                    && a.connected
                    && a.issued == [Connection.CommandLine(
                                      if s.connected then Connection.Reset
                                      else Connection.Add(index))])
              && (index !in disk.files ==> a.connected == s.connected && a.issued == [])
  {
    match Workspace(s)
    case None => Attach(s.connected, [], true)
    case Some(workspace) =>
      var index := PathJoin(workspace, IndexName);
      var step := Connection.InitCscope(s.connected, index in disk.files, index);
      var issued := if step.issued.Some? then [Connection.CommandLine(step.issued.value)] else [];
      Attach(step.connected, issued, false)
  }

  /** The report for a failed `cscope.files` step, if any. */
  function FilesReport(step: FilesStep): (reports: seq<Report>)
    ensures |reports| <= 1 && (step.failure.Some? <==> |reports| == 1)
    ensures |reports| == 1 ==> reports[0] == FilesFailed(step.failure.value)
  {
    if step.failure.Some? then [FilesFailed(step.failure.value)] else []
  }

  /** The rest of `CScopeUpdate` once `cscope.files` was dealt with: rebuild
      the index, report a missing file list, then attach the editor. */
  function Finish(s: State, world: World, env: UpdateEnv, spawned: seq<Argv>, reported: seq<Report>)
    : (o: Outcome)
    ensures o.state == s.(connected := o.state.connected)
    ensures o.world.vars == world.vars && o.world.disk.dirs == world.disk.dirs
    ensures world.disk.files <= o.world.disk.files
    ensures o.reports == reported
              + (if Workspace(s).Some? && PathJoin(Workspace(s).value, FileListName) !in world.disk.files
                 then [FileListMissing] else [])
    ensures Workspace(s).None? ==> o.spawned == spawned && o.world.disk == world.disk
    ensures Workspace(s).Some? ==>
              var list := PathJoin(Workspace(s).value, FileListName);
              var index := PathJoin(Workspace(s).value, IndexName);
              var runs := list in world.disk.files && env.cscopeStarts;
              && o.spawned == spawned + (if runs then [CscopeArgv(list, index)] else [])
              && o.world.disk.files == world.disk.files
                   + (if runs && env.cscopeWritesOut then {index} else {})
    ensures o.aborted ==> o.state == s && o.commands == []
    ensures o.aborted <==>
              || Workspace(s).None?
              || (PathJoin(Workspace(s).value, FileListName) in world.disk.files && !env.cscopeStarts)
    ensures !o.aborted ==>
              var index := PathJoin(Workspace(s).value, IndexName);
              && (index in o.world.disk.files ==>
                    && o.state.connected
                    && o.commands == [Connection.CommandLine(if s.connected then Connection.Reset
                                                             else Connection.Add(index))])
              && (index !in o.world.disk.files ==> o.state.connected == s.connected && o.commands == [])
  {
    var out := UpdateOut(s, world.disk, env);
    var reported' := reported + (if out.listMissing then [FileListMissing] else []);
    assert reported'[..|reported|] == reported;
    var spawned' := spawned + out.spawned;
    assert spawned'[..|spawned|] == spawned;
    if out.aborted then Outcome(s, world.(disk := out.disk), spawned', reported', [], true)
    else
      var attach := AttachIndex(s, out.disk);
      Outcome(s.(connected := attach.connected), world.(disk := out.disk), spawned',
              reported', attach.issued, attach.aborted)
  }

  /** `CScopeUpdate`: regenerates the file list, then the index, reporting
      each failure, and then always attaches the editor to the index if the
      index file exists. Only an escaping exception skips later steps. */
  function Update(s: State, world: World, env: UpdateEnv): (o: Outcome)
    ensures o.state == s.(connected := o.state.connected)
    // The editor variables are the only part of the world left out: the
    // `cscope_debug` write of `__update_cscope_files` is not modelled.
    ensures o.world.vars == world.vars && o.world.disk.dirs == world.disk.dirs
    ensures world.disk.files <= o.world.disk.files
    ensures s.command.Unset? ==> o.aborted && o.reports == [] && o.spawned == []
    ensures o.aborted ==> o.state == s && o.commands == []
    ensures !o.aborted ==> Workspace(s).Some?
    ensures s.command.NotReady? || (s.command.Built? && !Runnable(s.command)) ==>
              o.reports == [FilesFailed(CommandNotReady)]
                + (if Workspace(s).Some? && PathJoin(Workspace(s).value, FileListName) !in world.disk.files
                   then [FileListMissing] else [])
    ensures Runnable(s.command) && Workspace(s).Some? ==>
              var ws := Workspace(s).value;
              var list := PathJoin(ws, FileListName);
              var usable := ws in world.disk.dirs && env.writable;
              o.reports ==
                (if !usable then [FilesFailed(CannotWrite(list))]
                 else if !env.findStarts then [FilesFailed(CannotRunFind)] else [])
                + (if !usable && list !in world.disk.files then [FileListMissing] else [])
    ensures !o.aborted ==>
              var index := PathJoin(Workspace(s).value, IndexName);
              && (index in o.world.disk.files ==>
                    && o.state.connected
                    && o.commands == [Connection.CommandLine(if s.connected then Connection.Reset
                                                             else Connection.Add(index))])
              && (index !in o.world.disk.files ==> o.state.connected == s.connected && o.commands == [])
  {
    var files := UpdateFiles(s, world.disk, env);
    var reported := FilesReport(files);
    if files.aborted then Outcome(s, world.(disk := files.disk), files.spawned, reported, [], true)
    else
      var o := Finish(s, world.(disk := files.disk), env, files.spawned, reported);
      assert s.command.NotReady? ==>
        reported == [FilesFailed(CommandNotReady)] && o.reports[..1] == reported && files.spawned == [];
      o
  }

  /** The processes an update starts and the files it writes: the stored
      `find` when the command is runnable, the workspace is a directory, the
      file list can be opened and `find` starts; then `cscope` whenever the
      file list exists at that point and `cscope` starts. The update raises
      in the first step when the command attribute is missing or, for a
      runnable command, the workspace is unknown, and in the second step
      exactly when the file list exists but `cscope` cannot start. */
  lemma UpdateRunsProcesses(s: State, world: World, env: UpdateEnv)
    ensures var o := Update(s, world, env);
      s.command.Unset? || (Runnable(s.command) && Workspace(s).None?) ==>
        o.aborted && o.reports == [] && o.spawned == [] && o.world == world
    ensures var o := Update(s, world, env);
      s.command.Unset? || Workspace(s).None? ==> o.spawned == [] && o.world.disk == world.disk
    ensures var o := Update(s, world, env);
      !s.command.Unset? && Workspace(s).Some? ==>
        var ws := Workspace(s).value;
        var list := PathJoin(ws, FileListName);
        var index := PathJoin(ws, IndexName);
        var written := Runnable(s.command) && ws in world.disk.dirs && env.writable;
        var runsFind := written && env.findStarts;
        var runsCscope := (list in world.disk.files || written) && env.cscopeStarts;
        && o.spawned == (if runsFind then [s.command.argv] else [])
                          + (if runsCscope then [CscopeArgv(list, index)] else [])
        && o.world.disk.files == world.disk.files
             + (if written then {list} else {})
             + (if runsCscope && env.cscopeWritesOut then {index} else {})
        && (o.aborted <==> (list in world.disk.files || written) && !env.cscopeStarts)
  {
    var files := UpdateFiles(s, world.disk, env);
    if !files.aborted {
      var w := world.(disk := files.disk);
      assert Update(s, world, env) == Finish(s, w, env, files.spawned, FilesReport(files));
    }
  }

  /** An update can raise after echoing a report: when `find` cannot start,
      the file list was already opened, so `cscope` is attempted and, when it
      cannot start either, raises after the `find` failure was echoed. */
  lemma UpdateRaisesAfterReport()
    ensures var s := State(true, false, Some("/c"), Some("p"), Built(["find"]));
      var o := Update(s, World(map[], Disk({"/c/p"}, {})), UpdateEnv(true, false, false, false));
      o.aborted && o.reports == [FilesFailed(CannotRunFind)] && o.spawned == []
  {
    var s := State(true, false, Some("/c"), Some("p"), Built(["find"]));
    assert PathJoin("/c", "p") == "/c" + "/" + "p" == "/c/p";
    assert Workspace(s) == Some("/c/p");
    UpdateRunsProcesses(s, World(map[], Disk({"/c/p"}, {})), UpdateEnv(true, false, false, false));
  }

  /** Before any start the command attribute does not exist, so an update
      raises at once instead of reporting that the command is not ready. */
  lemma UpdateBeforeStartAborts(world: World, env: UpdateEnv)
    ensures var o := Update(Fresh, world, env);
      o.aborted && o.reports == [] && o.commands == [] && o.spawned == [] && o.state == Fresh
  {
  }

  /** With the command attribute set, a known workspace, and a `cscope` that
      can be started, an update always reaches the connection step, whatever
      the two build steps reported; without either it raises. */
  lemma UpdateAbortCases(s: State, world: World, env: UpdateEnv)
    requires env.cscopeStarts
    ensures Update(s, world, env).aborted <==> s.command.Unset? || Workspace(s).None?
  {
  }

  /** Once connected, an update never issues `cscope add`: the only command
      line it can run is `cscope reset`, and the flag stays set. */
  lemma UpdateNeverAddsTwice(s: State, world: World, env: UpdateEnv)
    requires s.connected
    ensures var o := Update(s, world, env);
      o.state.connected && (o.commands == [] || o.commands == ["cscope reset"])
  {
  }

  /** An update in which every file access and process succeeds, from a
      state with a built command, a prepared workspace and no connection,
      runs the `find` command and then `cscope` on the workspace, reports
      nothing, and adds the new index. */
  lemma ReadyUpdateAddsIndex(s: State, world: World)
    requires s.command.Built? && s.command.argv != [] && !s.connected
    requires Workspace(s).Some? && Workspace(s).value in world.disk.dirs
    ensures var ws := Workspace(s).value;
      var index := PathJoin(ws, IndexName);
      var u := Update(s, world, UpdateEnv(true, true, true, true));
      && !u.aborted
      && u.spawned == [s.command.argv, CscopeArgv(PathJoin(ws, FileListName), index)]
      && u.reports == []
      && u.commands == ["cscope add " + index]
      && u.state.connected
  {
    var env := UpdateEnv(true, true, true, true);
    var ws := Workspace(s).value;
    var list := PathJoin(ws, FileListName);
    var index := PathJoin(ws, IndexName);
    var files := UpdateFiles(s, world.disk, env);
    assert files.spawned == [s.command.argv] && files.failure.None? && !files.aborted;
    assert list in files.disk.files;
    var w := world.(disk := files.disk);
    var out := UpdateOut(s, w.disk, env);
    assert out.spawned == [CscopeArgv(list, index)] && !out.listMissing && !out.aborted;
    assert index in out.disk.files;
    assert FilesReport(files) == [];
    assert Update(s, world, env) == Finish(s, w, env, [s.command.argv], []);
  }

  /** After a successful start, such an update adds the index: a start always
      clears the plugin's connection flag, so the `add` is sent again even
      when an earlier session had already added the same index, which the
      editor still holds. The model takes every editor command line to
      succeed, so it does not show the editor rejecting that duplicate. */
  lemma StartThenUpdateAddsIndex(s: State, world: World, host: Host, args: seq<string>)
    requires Start(s, world, host, args).state.ready
    ensures var o := Start(s, world, host, args);
      var ws := Workspace(o.state).value;
      var index := PathJoin(ws, IndexName);
      var u := Update(o.state, o.world, UpdateEnv(true, true, true, true));
      && !u.aborted
      && u.spawned == [o.state.command.argv, CscopeArgv(PathJoin(ws, FileListName), index)]
      && u.reports == []
      && u.commands == ["cscope add " + index]
      && u.state.connected
  {
    var o := Start(s, world, host, args);
    ReadyUpdateAddsIndex(o.state, o.world);
  }

  /** Once the index exists, every further update that gets through resets
      the connection rather than adding it again. */
  lemma LaterUpdatesReset(s: State, world: World, env: UpdateEnv)
    requires s.connected && Workspace(s).Some?
    requires PathJoin(Workspace(s).value, IndexName) in world.disk.files
    ensures var o := Update(s, world, env);
      !o.aborted ==> o.state.connected && o.commands == ["cscope reset"]
  {
  }

  /** A failed start keeps the command built by an earlier successful start.
      An update that follows therefore does not report "command not ready";
      when the project name is still known and the workspace is writable, it
      runs the earlier configuration's `find` command again. */
  lemma FailedRestartKeepsCommand(s: State, world: World, host: Host, args: seq<string>,
                                  env: UpdateEnv)
    requires s.command.Built? && s.command.argv != []
    requires !Start(s, world, host, args).state.ready
    ensures var o := Start(s, world, host, args);
      var u := Update(o.state, o.world, env);
      && o.state.command == s.command
      && FilesFailed(CommandNotReady) !in u.reports
    ensures var o := Start(s, world, host, args);
      var u := Update(o.state, o.world, env);
      Workspace(o.state).Some? && Workspace(o.state).value in o.world.disk.dirs
        && env.writable && env.findStarts ==>
        |u.spawned| >= 1 && u.spawned[0] == s.command.argv
  {
    var o := Start(s, world, host, args);
    var files := UpdateFiles(o.state, o.world.disk, env);
    assert files.failure != Some(CommandNotReady);
    if !files.aborted {
      var w := o.world.(disk := files.disk);
      var out := UpdateOut(o.state, w.disk, env);
      var reported := FilesReport(files) + (if out.listMissing then [FileListMissing] else []);
      assert FilesFailed(CommandNotReady) !in reported;
    }
  }
}

=== FILE: results.dfy ===
/** Optional values and success-or-error results shared by the other modules. */
module Results {

  /** A value that may be missing, like Python's `None` versus a set attribute. */
  datatype Option<+T> = None | Some(value: T)

  /** The outcome of an operation that either produces a value or reports an error. */
  datatype Result<+T, +E> = Ok(value: T) | Err(error: E)
}

=== FILE: splitting.dfy ===
/**
 * String splitting and joining on a one-character separator, with the
 * semantics of Python's `str.split(sep)` and `sep.join(parts)`, plus the
 * filter that drops empty entries from a list of lines.
 */
module Splitting {

  /** Python's `s.split(sep)` for a one-character separator: the pieces
      between separators, keeping empty pieces, never an empty list. */
  function Split(s: string, sep: char): (pieces: seq<string>)
    ensures |pieces| == multiset(s)[sep] + 1
    ensures forall i :: 0 <= i < |pieces| ==> sep !in pieces[i]
    decreases |s|
  {
    if |s| == 0 then [""]
    else
      assert s == [s[0]] + s[1..];
      var rest := Split(s[1..], sep);
      if s[0] == sep then [""] + rest
      else [[s[0]] + rest[0]] + rest[1..]
  }

  /** Python's `sep.join(parts)` for a one-character separator. */
  function Join(parts: seq<string>, sep: char): string
  {
    if |parts| == 0 then ""
    else if |parts| == 1 then parts[0]
    else parts[0] + [sep] + Join(parts[1..], sep)
  }

  /** Joining the pieces again with the same separator gives back the input. */
  lemma {:induction false} JoinSplit(s: string, sep: char)
    ensures Join(Split(s, sep), sep) == s
    decreases |s|
  {
    if |s| > 0 {
      var tail := s[1..];
      var rest := Split(tail, sep);
      JoinSplit(tail, sep);
      assert s == [s[0]] + tail;
      if s[0] == sep {
        JoinAfterEmpty(rest, sep);
      } else {
        JoinExtendFirst(s[0], rest, sep);
      }
    }
  }

  /** Joining `[""] + rest` puts one separator in front of `rest`'s join. */
  lemma JoinAfterEmpty(rest: seq<string>, sep: char)
    requires |rest| >= 1
    ensures Join([""] + rest, sep) == [sep] + Join(rest, sep)
  {
    assert ([""] + rest)[1..] == rest;
  }

  /** Prefixing a character to the first part prefixes it to the join. */
  lemma JoinExtendFirst(c: char, rest: seq<string>, sep: char)
    requires |rest| >= 1
    ensures Join([[c] + rest[0]] + rest[1..], sep) == [c] + Join(rest, sep)
  {
    var parts := [[c] + rest[0]] + rest[1..];
    if |rest| > 1 {
      assert parts[1..] == rest[1..];
      var j := Join(rest[1..], sep);
      assert Join(parts, sep) == ([c] + rest[0]) + [sep] + j;
      assert Join(rest, sep) == rest[0] + [sep] + j;
      assert ([c] + rest[0]) + [sep] + j == [c] + (rest[0] + [sep] + j);
    }
  }

  /** A string without the separator is a single piece. */
  lemma {:induction false} SplitWithoutSeparator(s: string, sep: char)
    requires sep !in s
    ensures Split(s, sep) == [s]
    decreases |s|
  {
    if |s| > 0 {
      SplitWithoutSeparator(s[1..], sep);
      assert [s[0]] + s[1..] == s;
    }
  }

  /** A separator-free prefix followed by the separator becomes the first piece. */
  lemma {:induction false} SplitAfterPiece(a: string, sep: char, b: string)
    requires sep !in a
    ensures Split(a + [sep] + b, sep) == [a] + Split(b, sep)
    decreases |a|
  {
    var s := a + [sep] + b;
    if |a| == 0 {
      assert s == [sep] + b;
      assert s[1..] == b;
    } else {
      assert s[1..] == a[1..] + [sep] + b;
      SplitAfterPiece(a[1..], sep, b);
      assert [a[0]] + a[1..] == a;
    }
  }

  /** Splitting undoes joining when no part contains the separator. */
  lemma {:induction false} SplitJoin(parts: seq<string>, sep: char)
    requires |parts| >= 1
    requires forall i :: 0 <= i < |parts| ==> sep !in parts[i]
    ensures Split(Join(parts, sep), sep) == parts
    decreases |parts|
  {
    if |parts| == 1 {
      SplitWithoutSeparator(parts[0], sep);
    } else {
      SplitJoin(parts[1..], sep);
      SplitAfterPiece(parts[0], sep, Join(parts[1..], sep));
      assert [parts[0]] + parts[1..] == parts;
    }
  }

  /** The entries of `lines` that are not the empty string, in their order. */
  function RemoveEmpty(lines: seq<string>): (kept: seq<string>)
    ensures |kept| <= |lines|
    ensures forall i :: 0 <= i < |kept| ==> kept[i] != ""
    ensures forall x :: x in kept <==> x in lines && x != ""
  {
    if |lines| == 0 then []
    else if lines[0] == "" then RemoveEmpty(lines[1..])
    else [lines[0]] + RemoveEmpty(lines[1..])
  }

  /** Filtering distributes over concatenation, so relative order is kept. */
  lemma {:induction false} RemoveEmptyAppend(a: seq<string>, b: seq<string>)
    ensures RemoveEmpty(a + b) == RemoveEmpty(a) + RemoveEmpty(b)
    decreases |a|
  {
    if |a| > 0 {
      assert (a + b)[1..] == a[1..] + b;
      RemoveEmptyAppend(a[1..], b);
    } else {
      assert a + b == b;
    }
  }

  /** A list with no empty entry passes through the filter unchanged. */
  lemma {:induction false} RemoveEmptyKeepsNonEmpty(lines: seq<string>)
    requires forall i :: 0 <= i < |lines| ==> lines[i] != ""
    ensures RemoveEmpty(lines) == lines
    decreases |lines|
  {
    if |lines| > 0 {
      RemoveEmptyKeepsNonEmpty(lines[1..]);
      assert [lines[0]] + lines[1..] == lines;
    }
  }
}
